=== FILE: README.md ===
# Equilibrium statistic engine, modelled in Dafny

The engine in `main.py` repeatedly replaces a dataset by its triple
[mean, median, mode]. The loop stops in one of two ways:

- the three values lie within a threshold ε of each other ("convergence"); or
- the last 1000 triples are identical ("stagnation").

On stopping it returns the average of the last triple and the history of
triples. With the threshold argument `'*'` the convergence test is switched
off and only stagnation ends the run. In the model, whose values are exact,
that happens only when the triples become exactly equal (see "## Left out").

The project has six modules:

- `Sorting` (`sorting.dfy`): the ascending sort the median is defined on
  (insertion sort), with proofs that it sorts and permutes and that the sorted
  order is unique.
- `Statistics` (`statistics.dfy`):
  - `Mean`, `Median` and `Mode`, and `Compute`, which returns the triple;
  - reference definitions for the statistics: `IsModeOf` for the mode, counts
    below and above the median, and any sorted arrangement for the median;
  - proofs that each computed statistic meets its reference definition.
- `Convergence` (`convergence.dfy`): the two stopping tests.
  - `Converges`, with its pairwise characterisation.
  - `Stagnated`, with the loop `CheckStagnation` that runs the test as the
    code does and is proved equal to it.
- `Engine` (`engine.dfy`):
  - `Iterate` is the loop, written over any statistic extractor.
  - `Run` starts it with an empty history.
  - `Equilibrium` is the engine itself: `Run` with `Statistics.Compute`.
  - The loop's history is related to `Trace`, the plain iteration with no
    stopping test. That relation gives the exit lemmas, the range bounds and
    the meaning of running out of fuel.
- `Invariance` (`invariance.dfy`): the engine commutes with a change of units
  and origin x ↦ a·x + b with a > 0, with the threshold scaled by a.
  Translation (a = 1) and scaling (b = 0) are its two special cases.
- `Exactness` (`exactness.dfy`): a run with the `'*'` flag that never ends
  with exact values, because its triples only approach a constant.

Numbers are exact `real`s. The source's `while True` becomes a `fuel`
parameter: a run still looping when the fuel is spent returns
`Failed(FuelExhausted)`. An empty initial dataset returns
`Failed(EmptyDataset)`, which models the division by zero that the first mean
raises.

Facts about the code that the model keeps:

- Convergence is `max − min ≤ ε`; a spread equal to ε counts.
  `Convergence.ConvergesIffPairwise` shows this is the same as no two values
  being more than ε apart.
- The loop also exits when the last 1000 triples are identical, and the
  history is then cut by 999 entries.
- `equilibrium_statistic` has no iteration limit. The model's fuel stands in
  for the unbounded loop; it is not a limit the code applies.
  `Engine.RunExhausted` and `Engine.RunFinishesWithin` show that the fuel
  only cuts runs short.
- `equilibrium_statistic` does not check ε; only the prompt does
  (main.py:290-292). The model, like that function, accepts any real ε.

## Model

| member | source | states |
|---|---|---|
| Sorting.SortSortsAndPermutes | main.py:19-21 | the sorted copy the median reads is ascending and holds exactly the input's values with their multiplicities |
| Sorting.SortedUnique | main.py:19-21 | two ascending sequences with the same multiset of values are equal, so the sorted copy is unique |
| Sorting.SortPermutationInvariant | main.py:19-21 | the sorted copy does not depend on the order of the input |
| Statistics.MinIsLeast | main.py:78 | Python's `min` of a non-empty list is one of its elements and no element is smaller |
| Statistics.MaxIsGreatest | main.py:79 | Python's `max` of a non-empty list is one of its elements and no element is larger |
| Statistics.MeanBounds | main.py:14-16 | the mean (sum over length) lies between the smallest and the largest element |
| Statistics.MeanOfConstant | main.py:14-16 | the mean of a sequence whose elements all equal c is c |
| Statistics.MedianFromAnySortedArrangement | main.py:19-21 | for any ascending arrangement of the data, the median is its middle element for an odd count and the average of its two middle elements for an even count |
| Statistics.MedianBounds | main.py:19-21 | the median lies between the smallest and the largest element |
| Statistics.MedianPermutationInvariant | main.py:19-21 | reordering the data does not change the median |
| Statistics.MedianSplitsData | main.py:19-21 | at most half of the elements lie strictly below the median and at most half strictly above it |
| Statistics.MaxCountIsMaximum | main.py:32-33 | the highest count is reached by some value of the data and no value is counted more often |
| Statistics.WithCountMembers | main.py:40 | the candidate modes are exactly the values of the data whose count equals the highest count |
| Statistics.DistinctIffAllCountsOne | main.py:35-37 | every value occurring once (highest count 1) is the same as no value repeating |
| Statistics.ModeMeetsDefinition | main.py:24-43 | without repeats the mode is the mean; with repeats it is a value of the data that no value outnumbers and the smallest of those reaching the highest count |
| Statistics.ModeUnique | main.py:24-43 | any value meeting that definition is the computed mode |
| Statistics.ModeFallback | main.py:35-37 | when all values are distinct the mode equals the mean exactly |
| Statistics.ModeBounds | main.py:24-43 | the mode lies between the smallest and the largest element |
| Statistics.ComputeWithin | main.py:84-90 | each of mean, median and mode lies within the range of the dataset it was computed from |
| Statistics.SingletonStatistics | main.py:84-90 | a single value x yields the triple (x, x, x) |
| Statistics.ConstantTripleIsFixedPoint | main.py:84-90 | the dataset [x, x, x] yields the triple (x, x, x), so a constant triple repeats forever |
| Convergence.ConvergesIffPairwise | main.py:70-81 | lists shorter than 2 converge; otherwise convergence holds exactly when no two values differ by more than ε, a spread equal to ε included |
| Convergence.StagnatedIffWindowConstant | main.py:50-67 | fewer than `window` entries never stagnate; otherwise stagnation holds exactly when the last `window` entries are all equal |
| Convergence.CheckStagnation | main.py:50-67 | comparing each of the last `window` entries after the first with the first, stopping at the first mismatch, answers the stagnation test |
| Engine.Run | main.py:124-134 | the loop fails for lack of data exactly when the initial dataset is empty |
| Engine.Equilibrium | main.py:98-181 | the engine fails for lack of data exactly when the initial dataset is empty |
| Engine.TraceFeedsBack | main.py:128-181 | round one works on the initial data and every later round works on the previous triple [mean, median, mode] |
| Engine.TraceBounded | main.py:128-181 | with an extractor that stays within its input's range, every triple of the iteration lies within the range of the initial data |
| Engine.IterateConverged | main.py:128-152 | a convergence exit from any point of the loop appends exactly one triple per round and the last appended triple converged |
| Engine.IterateStagnated | main.py:128-160 | a stagnation exit from any point of the loop returns the full history cut by 999 entries, and that full history stagnated |
| Engine.IterateConvergedFirst | main.py:128-152 | before a convergence exit from any point of the loop, none of the triples appended on the way converged |
| Engine.IterateConvergedNotStagnated | main.py:147-155 | before a convergence exit from any point of the loop, no history reached on the way stagnated |
| Engine.IterateStagnatedNotConverged | main.py:147-160 | before a stagnation exit from any point of the loop, no triple of the full history appended on the way converged |
| Engine.IterateStagnatedFirst | main.py:147-160 | before a stagnation exit from any point of the loop, no shorter history reached on the way stagnated |
| Engine.IterateFuelMonotone | main.py:128-181 | a loop that finishes within some fuel, from any point, finishes with the same result within any larger fuel |
| Engine.RunConverged | main.py:147-152 | a convergence exit happens only with a numeric ε, within the fuel; it returns the whole history of the iteration, whose last triple converged, and that triple's average |
| Engine.RunConvergedFirst | main.py:147-155 | before a convergence exit no round converged and no history stagnated |
| Engine.RunStagnated | main.py:155-160 | a stagnation exit happens after at least 1000 rounds whose last 1000 triples are equal; it returns the first n − 999 triples and the average of the last triple, which is also the last returned triple |
| Engine.RunStagnatedFirst | main.py:147-160 | before a stagnation exit no round converged and no shorter history stagnated |
| Engine.StagnationOnlySkipsConvergence | main.py:147 | with the `'*'` flag the convergence exit is never taken |
| Engine.RunBounded | main.py:128-181 | with a range-preserving extractor every returned triple and the returned statistic lie within the range of the initial data |
| Engine.EquilibriumBounded | main.py:128-181 | the engine's returned triples and statistic lie within the range of the initial data |
| Engine.RunFuelMonotone | main.py:128 | a run that finishes within some fuel finishes with the same result within any larger fuel |
| Engine.IterateExhausted | main.py:128-160 | from any point, the loop runs out of fuel exactly when no round of the plain iteration within the fuel converged (numeric ε) or stagnated |
| Engine.RunExhausted | main.py:128-160 | a run runs out of fuel exactly when the data is non-empty and none of the first `fuel` rounds converged (numeric ε) or stagnated, so only the missing iteration limit is cut off |
| Engine.IterateNeedsRounds | main.py:128-160 | a loop that exits does so within its fuel, after a number of rounds equal to the returned history's length (plus 999 on a stagnation exit), and that many rounds give the same result |
| Engine.RunFinishesWithin | main.py:128-160 | a run exiting after n rounds gives the same result with every fuel of at least n, so fuel only cuts runs short |
| Engine.EquilibriumSingleValue | main.py:147-152 | a single value with ε ≥ 0 converges in one round, returning that value and a one-entry history |
| Engine.EquilibriumSingleValueStagnationOnly | main.py:155-160 | with the `'*'` flag a single value runs 1000 rounds, then returns that value with the history cut back to one entry |
| Invariance.MinMaxMap | main.py:78-79 | under x ↦ a·x + b with a > 0 the least and greatest elements map to the least and greatest mapped elements |
| Invariance.SortMap | main.py:19-21 | sorting the mapped data gives the mapped sorted data, for a > 0 |
| Invariance.MeanMap | main.py:14-16 | the mean of the mapped data is the mapped mean, for any a and b |
| Invariance.MedianMap | main.py:19-21 | the median of the mapped data is the mapped median, for a > 0 |
| Invariance.CountMap | main.py:32 | a value's count is unchanged when the data and the value are mapped, for a > 0 |
| Invariance.DistinctMap | main.py:35-37 | the mapped data repeat a value exactly when the data do, for a > 0 |
| Invariance.ModeOfMap | main.py:24-43 | a mode of repeating data, mapped, meets the mode's definition for the mapped data |
| Invariance.ModeMap | main.py:24-43 | the mode of the mapped data is the mapped mode, in the mean fall-back and in the smallest-most-frequent branch |
| Invariance.ComputeMap | main.py:84-90 | the triple of the mapped data is the mapped triple, for a > 0 |
| Invariance.ConvergesMap | main.py:70-81 | mapped values converge within a·ε exactly when the values converge within ε |
| Invariance.StagnatedMap | main.py:50-67 | a mapped history stagnates exactly when the history does, for a > 0 |
| Invariance.IterateMap | main.py:128-181 | from any point, the loop on mapped data with a scaled threshold gives the mapped result, for any extractor that commutes with the map |
| Invariance.EquilibriumMap | main.py:98-181 | the engine on data mapped by x ↦ a·x + b (a > 0), with ε scaled by a, returns the mapped statistic and history through the same exit, and fails alike |
| Invariance.EquilibriumShift | main.py:98-181 | adding c to every value adds c to the returned statistic and to every returned triple, with the same threshold |
| Invariance.EquilibriumScale | main.py:98-181 | multiplying every value and ε by c > 0 multiplies the returned statistic and every returned triple by c |
| Exactness.DecayRound | main.py:84-90 | one round on [a, 0, 0] with a > 0 gives (a/3, 0, 0), since 0 is the most frequent value and the middle one |
| Exactness.DecayNeverStagnates | main.py:128-160 | from [a, 0, 0] with a > 0 and the `'*'` flag, every round gives a new triple, so the loop uses up any fuel |
| Exactness.StagnationOnlyDecayNeverEnds | main.py:155-160 | with exact values the engine on [1, 0, 0] with `'*'` runs out of any fuel |

## Left out

- Printing, `format_values` and the rounding they do (main.py:93-95, 116-122,
  139-144, 149-151, 162-170, 172-178): display only.
- `plot_convergence`, `get_user_input` and `main` (main.py:184-341): plotting
  and interactive input parsing.
- The `show_graph` argument: the engine never reads it.
- The `except Exception` fall-back in `calculate_mode` (main.py:45-47). It can
  only be reached on empty data. The model gives `Mode` a non-empty
  precondition, and the engine reports an empty initial dataset as
  `Failed(EmptyDataset)` before any statistic is computed.
- IEEE-754 floating point, including rounding in sum and division, NaN and
  infinities. Values are exact reals, and `statistics.median` and
  `Counter` are replaced by the definitions above. The translation and scale
  invariance proved in `Invariance` holds for reals. In floating point it can
  fail. Rounding can change the mode's counts, the stagnation test and the
  `≤ ε` test, so a shifted or scaled run can exit in a different round; for
  example, [1, 0, 0] and [2, 1, 1] with `'*'`.
- A threshold that is a string other than `'*'`: the comparison would raise a
  Python type error. `Eps` admits only a number or the flag.
- Engine.Run: the unbounded `while True` is modelled with a fuel bound. Runs
  longer than the fuel return `Failed(FuelExhausted)` instead of continuing,
  and only those do. Nothing is claimed about whether a run ends. With exact
  reals the stagnation exit is reached only when triples become exactly
  equal. A run that the program ends because its floating-point values reach
  a fixed point runs out of fuel in the model. An example is [1, 0, 0] with
  `'*'`: the float mean 3^-k underflows to 0 after some hundreds of rounds,
  after which the triples repeat. In the model the triples (3^-k, 0, 0) never
  repeat (`Exactness.StagnationOnlyDecayNeverEnds`).
- The default threshold ε = 0.001 of `equilibrium_statistic` (main.py:98):
  `Equilibrium` always takes its threshold explicitly.
- Convergence.CheckStagnation: requires `window >= 1`. The engine always
  passes 1000. With a window of 0, Python's `[-0:]` slice takes the whole
  history, which this model does not reproduce.

=== FILE: convergence.dfy ===
/** The two stopping tests of the engine: convergence of one round's values
    within a threshold, and stagnation of the recent history. */
module Convergence {
  import opened Statistics

  /** A list of fewer than two values always converges; otherwise it
      converges when largest minus smallest is at most `epsilon`. */
  function Converges(values: seq<real>, epsilon: real): bool {
    if |values| < 2 then true else Max(values) - Min(values) <= epsilon
  }

  /** Convergence means that no two values are further than `epsilon`
      apart, a spread exactly equal to `epsilon` included. */
  lemma ConvergesIffPairwise(values: seq<real>, epsilon: real)
    ensures |values| < 2 ==> Converges(values, epsilon)
    ensures |values| >= 2 ==>
      (Converges(values, epsilon) <==>
       forall i, j :: 0 <= i < |values| && 0 <= j < |values| ==> values[i] - values[j] <= epsilon)
  {
    if |values| >= 2 {
      var hi, lo := Max(values), Min(values);
      MaxIsGreatest(values);
      MinIsLeast(values);
      var a :| 0 <= a < |values| && values[a] == hi;
      var b :| 0 <= b < |values| && values[b] == lo;
      assert values[a] - values[b] == hi - lo;
    }
  }

  /** The history has at least `window` entries and every one of the last
      `window` entries equals the first of them. */
  predicate Stagnated(history: seq<Triple>, window: nat)
    requires window >= 1
  {
    |history| >= window &&
    forall i :: |history| - window < i < |history| ==> history[i] == history[|history| - window]
  }

  /** Stagnation means a history of at least `window` entries whose last
      `window` entries are all the same triple. */
  lemma StagnatedIffWindowConstant(history: seq<Triple>, window: nat)
    requires window >= 1
    ensures |history| < window ==> !Stagnated(history, window)
    ensures |history| >= window ==>
      (Stagnated(history, window) <==>
       forall i, j :: |history| - window <= i < |history| && |history| - window <= j < |history|
                      ==> history[i] == history[j])
  {
    if |history| >= window && Stagnated(history, window) {
      var start := |history| - window;
      forall i, j | start <= i < |history| && start <= j < |history|
        ensures history[i] == history[j]
      {
        assert history[i] == history[start] && history[j] == history[start];
      }
    }
  }

  /** The stagnation test as the engine runs it: take the last `window`
      entries and compare each entry after the first with the first,
      answering false at the first mismatch. */
  method CheckStagnation(history: seq<Triple>, window: nat) returns (r: bool)
    requires window >= 1
    ensures r == Stagnated(history, window)
  {
    if |history| < window {
      return false;
    }
    var recent := history[|history| - window..];
    var first := recent[0];
    var k := 1;
    while k < |recent|
      invariant 1 <= k <= |recent|
      invariant forall j :: 1 <= j < k ==> recent[j] == first
    {
      if recent[k] != first {
        assert history[|history| - window + k] != history[|history| - window];
        return false;
      }
      k := k + 1;
    }
    assert forall i :: |history| - window < i < |history| ==> history[i] == recent[i - (|history| - window)];
    return true;
  }
}

=== FILE: engine.dfy ===
/** The iterator: each round maps the current dataset to its triple
    [mean, median, mode], appends the triple to the history and feeds it back
    as the next round's dataset, until the triple converges within the
    threshold or the history stagnates.

    The loop is written over an arbitrary statistic extractor `extract`
    (defined on every non-empty dataset); `Equilibrium` instantiates it with
    `Statistics.Compute`. The loop's properties hold for any extractor, and
    the ones about ranges need only that the extractor stays within the
    range of its input, which `Statistics.ComputeWithin` proves. */
module Engine {
  import opened Statistics
  import opened Convergence

  /** The threshold argument: a number, or the `'*'` flag that switches the
      convergence test off so that only stagnation ends the run. */
  datatype Eps = Threshold(epsilon: real) | StagnationOnly

  /** Number of identical trailing history entries that count as stagnation. */
  const Window: nat := 1000

  /** Number of trailing history entries dropped on the stagnation exit. */
  const Trim: nat := 999

  datatype Exit = ByConvergence | ByStagnation

  /** The returned statistic, the history of triples as returned, and which
      exit produced them. */
  datatype Outcome = Outcome(statistic: real, history: seq<Triple>, exit: Exit)

  /** `EmptyDataset` is the division by zero the first mean raises on an
      empty input; `FuelExhausted` marks a run still looping when the
      round budget ran out. */
  datatype Failure = EmptyDataset | FuelExhausted

  datatype Result = Done(outcome: Outcome) | Failed(failure: Failure)

  /** An extractor can be applied to every non-empty dataset. */
  ghost predicate Total(extract: seq<real> --> Triple) {
    forall d: seq<real> :: |d| > 0 ==> extract.requires(d)
  }

  /** An extractor never leaves the range of its input. */
  ghost predicate RangeBound(extract: seq<real> --> Triple)
    requires Total(extract)
  {
    forall d: seq<real> :: |d| > 0 ==> extract(d).Within(Min(d), Max(d))
  }

  /** The loop, with `history` the triples so far and at most `fuel` more
      rounds. */
  function Iterate(extract: seq<real> --> Triple, data: seq<real>, eps: Eps, history: seq<Triple>, fuel: nat): Result
    requires Total(extract) && |data| > 0
    decreases fuel
  {
    if fuel == 0 then Failed(FuelExhausted)
    else
      var t := extract(data);
      var h := history + [t];
      if eps.Threshold? && Converges(t.Values(), eps.epsilon) then
        Done(Outcome(t.Average(), h, ByConvergence))
      else if Stagnated(h, Window) then
        Done(Outcome(t.Average(), if |h| >= Window then h[..|h| - Trim] else h, ByStagnation))
      else
        Iterate(extract, t.Values(), eps, h, fuel - 1)
  }

  /** The loop started on the initial dataset with an empty history,
      running at most `fuel` rounds. An empty dataset fails at once. */
  function Run(extract: seq<real> --> Triple, initial: seq<real>, eps: Eps, fuel: nat): (r: Result)
    requires Total(extract)
    ensures r == Failed(EmptyDataset) <==> |initial| == 0
  {
    if |initial| == 0 then Failed(EmptyDataset)
    else
      var r := Iterate(extract, initial, eps, [], fuel);
      assert r != Failed(EmptyDataset) by { IterateNeverEmpty(extract, initial, eps, [], fuel); }
      r
  }

  lemma ComputeTotal()
    ensures Total(Compute)
  {
  }

  /** The engine: the loop with mean, median and mode as the statistics. */
  function Equilibrium(initial: seq<real>, eps: Eps, fuel: nat): (r: Result)
    ensures r == Failed(EmptyDataset) <==> |initial| == 0
  {
    ComputeTotal();
    Run(Compute, initial, eps, fuel)
  }

  lemma {:induction false} IterateNeverEmpty(extract: seq<real> --> Triple, data: seq<real>, eps: Eps, history: seq<Triple>, fuel: nat)
    requires Total(extract) && |data| > 0
    ensures Iterate(extract, data, eps, history, fuel) != Failed(EmptyDataset)
    decreases fuel
  {
    if fuel > 0 {
      var t := extract(data);
      IterateNeverEmpty(extract, t.Values(), eps, history + [t], fuel - 1);
    }
  }

  /** The first n triples of the plain iteration, with no stopping test:
      the reference the engine's history is measured against. */
  function Trace(extract: seq<real> --> Triple, data: seq<real>, n: nat): (r: seq<Triple>)
    requires Total(extract) && |data| > 0
    ensures |r| == n
    decreases n
  {
    if n == 0 then []
    else
      var t := extract(data);
      [t] + Trace(extract, t.Values(), n - 1)
  }

  /** One round of the plain iteration: the first triple, then the
      iteration from that triple. */
  lemma TraceStep(extract: seq<real> --> Triple, data: seq<real>, n: nat)
    requires Total(extract) && |data| > 0 && n > 0
    ensures Trace(extract, data, n) == [extract(data)] + Trace(extract, extract(data).Values(), n - 1)
    ensures Trace(extract, data, 1) == [extract(data)]
  {
  }

  /** `TraceStep` after a history prefix. */
  lemma HistoryStep(extract: seq<real> --> Triple, data: seq<real>, history: seq<Triple>, n: nat)
    requires Total(extract) && |data| > 0 && n > 0
    ensures history + Trace(extract, data, n)
         == (history + [extract(data)]) + Trace(extract, extract(data).Values(), n - 1)
  {
    TraceStep(extract, data, n);
  }

  /** Round one works on the initial data; every later round works on the
      previous triple, as the dataset [mean, median, mode]. */
  lemma {:induction false} TraceFeedsBack(extract: seq<real> --> Triple, data: seq<real>, n: nat)
    requires Total(extract) && |data| > 0
    ensures n > 0 ==> Trace(extract, data, n)[0] == extract(data)
    ensures forall i :: 0 <= i < n - 1 ==>
      Trace(extract, data, n)[i + 1] == extract(Trace(extract, data, n)[i].Values())
    decreases n
  {
    if n > 0 {
      var t := extract(data);
      TraceFeedsBack(extract, t.Values(), n - 1);
      var tail := Trace(extract, t.Values(), n - 1);
      assert Trace(extract, data, n) == [t] + tail;
      forall i | 0 <= i < n - 1
        ensures Trace(extract, data, n)[i + 1] == extract(Trace(extract, data, n)[i].Values())
      {
        if i > 0 {
          assert Trace(extract, data, n)[i] == tail[i - 1];
        }
      }
    }
  }

  /** A triple within [lo, hi], read as a dataset, has its range inside
      [lo, hi]. */
  lemma ValuesWithin(t: Triple, lo: real, hi: real)
    requires t.Within(lo, hi)
    ensures lo <= Min(t.Values()) && Max(t.Values()) <= hi
  {
    MinIsLeast(t.Values());
    MaxIsGreatest(t.Values());
  }

  /** With a range-bound extractor every triple of the iteration stays
      within the range of the initial data. */
  lemma {:induction false} TraceBounded(extract: seq<real> --> Triple, data: seq<real>, n: nat)
    requires Total(extract) && RangeBound(extract) && |data| > 0
    ensures forall i :: 0 <= i < n ==> Trace(extract, data, n)[i].Within(Min(data), Max(data))
    decreases n
  {
    if n > 0 {
      var t := extract(data);
      var v := t.Values();
      var lo, hi := Min(data), Max(data);
      assert t.Within(lo, hi);
      ValuesWithin(t, lo, hi);
      TraceBounded(extract, v, n - 1);
      var rest := Trace(extract, v, n - 1);
      var tr := Trace(extract, data, n);
      assert tr == [t] + rest;
      forall i | 0 <= i < n
        ensures tr[i].Within(lo, hi)
      {
        if i > 0 {
          assert tr[i] == rest[i - 1];
          assert rest[i - 1].Within(Min(v), Max(v));
        }
      }
    }
  }

  /** The history `full` had stagnated after its first `k` rounds. */
  predicate StagnatedAfter(full: seq<Triple>, k: nat)
    requires k <= |full|
  {
    Stagnated(full[..k], Window)
  }

  /** How a convergence exit of the loop relates to the plain iteration:
      one entry per round, and the last entry converged. */
  lemma {:induction false} IterateConverged(extract: seq<real> --> Triple, data: seq<real>, eps: Eps,
                                            history: seq<Triple>, fuel: nat, o: Outcome)
    requires Total(extract) && |data| > 0
    requires Iterate(extract, data, eps, history, fuel) == Done(o) && o.exit == ByConvergence
    ensures eps.Threshold?
    ensures |history| < |o.history| <= |history| + fuel
    ensures o.history == history + Trace(extract, data, |o.history| - |history|)
    ensures Converges(o.history[|o.history| - 1].Values(), eps.epsilon)
    ensures o.statistic == o.history[|o.history| - 1].Average()
    decreases fuel
  {
    var t := extract(data);
    var h := history + [t];
    if eps.Threshold? && Converges(t.Values(), eps.epsilon) {
      TraceStep(extract, data, 1);
    } else {
      IterateConverged(extract, t.Values(), eps, h, fuel - 1, o);
      HistoryStep(extract, data, history, |o.history| - |history|);
    }
  }

  /** Before a convergence exit no round converged. */
  lemma {:induction false} IterateConvergedFirst(extract: seq<real> --> Triple, data: seq<real>, eps: Eps,
                                                 history: seq<Triple>, fuel: nat, o: Outcome)
    requires Total(extract) && |data| > 0
    requires Iterate(extract, data, eps, history, fuel) == Done(o) && o.exit == ByConvergence
    ensures |history| < |o.history| && eps.Threshold?
    ensures forall i :: |history| <= i < |o.history| - 1 ==> !Converges(o.history[i].Values(), eps.epsilon)
    decreases fuel
  {
    var t := extract(data);
    var h := history + [t];
    if !(eps.Threshold? && Converges(t.Values(), eps.epsilon)) {
      IterateConvergedFirst(extract, t.Values(), eps, h, fuel - 1, o);
      IterateConverged(extract, t.Values(), eps, h, fuel - 1, o);
      PrefixOf(h, Trace(extract, t.Values(), |o.history| - |h|));
    }
  }

  /** Before a convergence exit no round met the stagnation test. */
  lemma {:induction false} IterateConvergedNotStagnated(extract: seq<real> --> Triple, data: seq<real>, eps: Eps,
                                                        history: seq<Triple>, fuel: nat, o: Outcome)
    requires Total(extract) && |data| > 0
    requires Iterate(extract, data, eps, history, fuel) == Done(o) && o.exit == ByConvergence
    ensures |history| < |o.history|
    ensures forall k :: |history| < k < |o.history| ==> !StagnatedAfter(o.history, k)
    decreases fuel
  {
    var t := extract(data);
    var h := history + [t];
    if !(eps.Threshold? && Converges(t.Values(), eps.epsilon)) {
      IterateConvergedNotStagnated(extract, t.Values(), eps, h, fuel - 1, o);
      IterateConverged(extract, t.Values(), eps, h, fuel - 1, o);
      PrefixOf(h, Trace(extract, t.Values(), |o.history| - |h|));
    }
  }

  /** The full history, of n rounds, behind a stagnation exit. */
  ghost function FullHistory(extract: seq<real> --> Triple, data: seq<real>, history: seq<Triple>, o: Outcome): seq<Triple>
    requires Total(extract) && |data| > 0
    requires |history| <= |o.history| + Trim
  {
    history + Trace(extract, data, |o.history| + Trim - |history|)
  }

  /** A history extended by more rounds still starts with it. */
  lemma PrefixOf(h: seq<Triple>, rest: seq<Triple>)
    requires |h| > 0
    ensures (h + rest)[..|h|] == h
    ensures (h + rest)[|h| - 1] == h[|h| - 1]
  {
  }

  /** The full history behind a stagnation exit is the same whether it is
      measured before or after the current round. */
  lemma FullHistoryStep(extract: seq<real> --> Triple, data: seq<real>, history: seq<Triple>, o: Outcome)
    requires Total(extract) && |data| > 0
    requires |history| < |o.history| + Trim
    ensures FullHistory(extract, data, history, o)
         == FullHistory(extract, extract(data).Values(), history + [extract(data)], o)
  {
    HistoryStep(extract, data, history, |o.history| + Trim - |history|);
  }

  /** How a stagnation exit of the loop relates to the plain iteration:
      the full history of n rounds stagnated at round n, and the returned
      history is that full history without its last `Trim` entries. */
  lemma {:induction false} IterateStagnated(extract: seq<real> --> Triple, data: seq<real>, eps: Eps,
                                            history: seq<Triple>, fuel: nat, o: Outcome)
    requires Total(extract) && |data| > 0
    requires Iterate(extract, data, eps, history, fuel) == Done(o) && o.exit == ByStagnation
    ensures |history| < |o.history| + Trim <= |history| + fuel
    ensures Stagnated(FullHistory(extract, data, history, o), Window)
    ensures o.history == FullHistory(extract, data, history, o)[..|o.history|]
    ensures o.statistic == FullHistory(extract, data, history, o)[|o.history| + Trim - 1].Average()
    decreases fuel
  {
    var t := extract(data);
    var h := history + [t];
    if Stagnated(h, Window) && !(eps.Threshold? && Converges(t.Values(), eps.epsilon)) {
      TraceStep(extract, data, 1);
    } else {
      IterateStagnated(extract, t.Values(), eps, h, fuel - 1, o);
      FullHistoryStep(extract, data, history, o);
    }
  }

  /** Before a stagnation exit no round converged. */
  lemma {:induction false} IterateStagnatedNotConverged(extract: seq<real> --> Triple, data: seq<real>, eps: Eps,
                                                        history: seq<Triple>, fuel: nat, o: Outcome)
    requires Total(extract) && |data| > 0
    requires Iterate(extract, data, eps, history, fuel) == Done(o) && o.exit == ByStagnation
    ensures |history| < |o.history| + Trim
    ensures eps.Threshold? ==> forall i :: |history| <= i < |o.history| + Trim ==>
      !Converges(FullHistory(extract, data, history, o)[i].Values(), eps.epsilon)
    decreases fuel
  {
    var t := extract(data);
    var h := history + [t];
    if Stagnated(h, Window) {
      TraceStep(extract, data, 1);
    } else {
      IterateStagnatedNotConverged(extract, t.Values(), eps, h, fuel - 1, o);
      FullHistoryStep(extract, data, history, o);
      assert FullHistory(extract, data, history, o)[|history|] == t;
    }
  }

  /** The stagnation exit is taken at the first round whose history meets
      the stagnation test. */
  lemma {:induction false} IterateStagnatedFirst(extract: seq<real> --> Triple, data: seq<real>, eps: Eps,
                                                 history: seq<Triple>, fuel: nat, o: Outcome)
    requires Total(extract) && |data| > 0
    requires Iterate(extract, data, eps, history, fuel) == Done(o) && o.exit == ByStagnation
    ensures |history| < |o.history| + Trim
    ensures forall k :: |history| < k < |o.history| + Trim ==>
      !StagnatedAfter(FullHistory(extract, data, history, o), k)
    decreases fuel
  {
    var t := extract(data);
    var h := history + [t];
    if Stagnated(h, Window) {
      TraceStep(extract, data, 1);
    } else {
      IterateStagnatedFirst(extract, t.Values(), eps, h, fuel - 1, o);
      FullHistoryStep(extract, data, history, o);
      assert FullHistory(extract, data, history, o)[..|h|] == h;
    }
  }

  /** `IterateConverged` for a loop started with an empty history. */
  lemma StartConverged(extract: seq<real> --> Triple, initial: seq<real>, eps: Eps, fuel: nat, o: Outcome)
    requires Total(extract) && |initial| > 0
    requires Iterate(extract, initial, eps, [], fuel) == Done(o) && o.exit == ByConvergence
    ensures eps.Threshold?
    ensures 1 <= |o.history| <= fuel
    ensures o.history == Trace(extract, initial, |o.history|)
    ensures Converges(o.history[|o.history| - 1].Values(), eps.epsilon)
    ensures o.statistic == o.history[|o.history| - 1].Average()
  {
    IterateConverged(extract, initial, eps, [], fuel, o);
    assert [] + Trace(extract, initial, |o.history|) == Trace(extract, initial, |o.history|);
  }

  /** A convergence exit happens only with a numeric threshold. It returns
      the full history of the plain iteration, one entry per round, whose
      last triple is within the threshold, and the average of that
      triple. */
  lemma RunConverged(extract: seq<real> --> Triple, initial: seq<real>, eps: Eps, fuel: nat, o: Outcome)
    requires Total(extract)
    requires Run(extract, initial, eps, fuel) == Done(o) && o.exit == ByConvergence
    ensures |initial| > 0
    ensures eps.Threshold?
    ensures 1 <= |o.history| <= fuel
    ensures o.history == Trace(extract, initial, |o.history|)
    ensures Converges(o.history[|o.history| - 1].Values(), eps.epsilon)
    ensures o.statistic == o.history[|o.history| - 1].Average()
  {
    StartConverged(extract, initial, eps, fuel, o);
  }

  /** The convergence exit is taken at the first round that meets either
      exit condition: no earlier triple converged and no earlier history
      stagnated. */
  lemma RunConvergedFirst(extract: seq<real> --> Triple, initial: seq<real>, eps: Eps, fuel: nat, o: Outcome)
    requires Total(extract)
    requires Run(extract, initial, eps, fuel) == Done(o) && o.exit == ByConvergence
    ensures eps.Threshold?
    ensures forall i :: 0 <= i < |o.history| - 1 ==> !Converges(o.history[i].Values(), eps.epsilon)
    ensures forall k :: 0 < k < |o.history| ==> !StagnatedAfter(o.history, k)
  {
    IterateConvergedFirst(extract, initial, eps, [], fuel, o);
    IterateConvergedNotStagnated(extract, initial, eps, [], fuel, o);
  }

  /** `IterateStagnated` for a loop started with an empty history. */
  lemma StartStagnated(extract: seq<real> --> Triple, initial: seq<real>, eps: Eps, fuel: nat, o: Outcome)
    requires Total(extract) && |initial| > 0
    requires Iterate(extract, initial, eps, [], fuel) == Done(o) && o.exit == ByStagnation
    ensures Window <= |o.history| + Trim <= fuel
    ensures FullHistory(extract, initial, [], o) == Trace(extract, initial, |o.history| + Trim)
    ensures o.history == FullHistory(extract, initial, [], o)[..|o.history|]
    ensures forall i :: |o.history| - 1 <= i < |o.history| + Trim ==>
      FullHistory(extract, initial, [], o)[i] == o.history[|o.history| - 1]
    ensures o.statistic == o.history[|o.history| - 1].Average()
  {
    IterateStagnated(extract, initial, eps, [], fuel, o);
    var full := FullHistory(extract, initial, [], o);
    assert full == Trace(extract, initial, |o.history| + Trim);
    StagnatedIffWindowConstant(full, Window);
    assert |o.history| - 1 == |full| - Window;
    assert o.history[|o.history| - 1] == full[|o.history| - 1];
  }

  /** A stagnation exit happens after n rounds whose last `Window` triples
      are identical; it returns the first n - 999 triples and the average
      of the last triple, which is also the last triple returned. */
  lemma RunStagnated(extract: seq<real> --> Triple, initial: seq<real>, eps: Eps, fuel: nat, o: Outcome)
    requires Total(extract)
    requires Run(extract, initial, eps, fuel) == Done(o) && o.exit == ByStagnation
    ensures |initial| > 0
    ensures Window <= |o.history| + Trim <= fuel
    ensures FullHistory(extract, initial, [], o) == Trace(extract, initial, |o.history| + Trim)
    ensures o.history == FullHistory(extract, initial, [], o)[..|o.history|]
    ensures forall i :: |o.history| - 1 <= i < |o.history| + Trim ==>
      FullHistory(extract, initial, [], o)[i] == o.history[|o.history| - 1]
    ensures o.statistic == o.history[|o.history| - 1].Average()
  {
    StartStagnated(extract, initial, eps, fuel, o);
  }

  /** The stagnation exit is taken at the first round that meets either
      exit condition: no triple converged and no earlier history
      stagnated. */
  lemma RunStagnatedFirst(extract: seq<real> --> Triple, initial: seq<real>, eps: Eps, fuel: nat, o: Outcome)
    requires Total(extract)
    requires Run(extract, initial, eps, fuel) == Done(o) && o.exit == ByStagnation
    ensures |initial| > 0
    ensures eps.Threshold? ==> forall i :: 0 <= i < |o.history| + Trim ==>
      !Converges(FullHistory(extract, initial, [], o)[i].Values(), eps.epsilon)
    ensures forall k :: 0 < k < |o.history| + Trim ==> !StagnatedAfter(FullHistory(extract, initial, [], o), k)
  {
    IterateStagnatedNotConverged(extract, initial, eps, [], fuel, o);
    IterateStagnatedFirst(extract, initial, eps, [], fuel, o);
  }

  /** With the `'*'` flag the convergence exit is never taken. */
  lemma StagnationOnlySkipsConvergence(extract: seq<real> --> Triple, initial: seq<real>, fuel: nat)
    requires Total(extract)
    ensures !(Run(extract, initial, StagnationOnly, fuel).Done? &&
              Run(extract, initial, StagnationOnly, fuel).outcome.exit == ByConvergence)
  {
    var r := Run(extract, initial, StagnationOnly, fuel);
    if r.Done? && r.outcome.exit == ByConvergence {
      RunConverged(extract, initial, StagnationOnly, fuel, r.outcome);
    }
  }

  lemma AverageWithin(t: Triple, lo: real, hi: real)
    requires t.Within(lo, hi)
    ensures lo <= t.Average() <= hi
  {
  }

  lemma ComputeRangeBound()
    ensures Total(Compute) && RangeBound(Compute)
  {
    forall d: seq<real> | |d| > 0
      ensures Compute(d).Within(Min(d), Max(d))
    {
      ComputeWithin(d);
    }
  }

  /** An outcome whose history is a non-empty prefix of the plain
      iteration under a range-bound extractor, and whose statistic is the
      average of its last triple, stays within the range of the initial
      data. */
  lemma OutcomeBounded(extract: seq<real> --> Triple, initial: seq<real>, n: nat, o: Outcome)
    requires Total(extract) && RangeBound(extract) && |initial| > 0
    requires 0 < |o.history| <= n && o.history == Trace(extract, initial, n)[..|o.history|]
    requires o.statistic == o.history[|o.history| - 1].Average()
    ensures forall i :: 0 <= i < |o.history| ==> o.history[i].Within(Min(initial), Max(initial))
    ensures Min(initial) <= o.statistic <= Max(initial)
  {
    TraceBounded(extract, initial, n);
    assert forall i :: 0 <= i < |o.history| ==> o.history[i] == Trace(extract, initial, n)[i];
    AverageWithin(o.history[|o.history| - 1], Min(initial), Max(initial));
  }

  /** `RunBounded` for a loop started with an empty history. */
  lemma StartBounded(extract: seq<real> --> Triple, initial: seq<real>, eps: Eps, fuel: nat, o: Outcome)
    requires Total(extract) && RangeBound(extract) && |initial| > 0
    requires Iterate(extract, initial, eps, [], fuel) == Done(o)
    ensures forall i :: 0 <= i < |o.history| ==> o.history[i].Within(Min(initial), Max(initial))
    ensures Min(initial) <= o.statistic <= Max(initial)
  {
    if o.exit == ByConvergence {
      StartConverged(extract, initial, eps, fuel, o);
      assert o.history[..|o.history|] == o.history;
      OutcomeBounded(extract, initial, |o.history|, o);
    } else {
      StartStagnated(extract, initial, eps, fuel, o);
      OutcomeBounded(extract, initial, |o.history| + Trim, o);
    }
  }

  /** With a range-bound extractor every returned triple, and the returned
      statistic, lie within the range of the initial data. */
  lemma RunBounded(extract: seq<real> --> Triple, initial: seq<real>, eps: Eps, fuel: nat, o: Outcome)
    requires Total(extract) && RangeBound(extract)
    requires Run(extract, initial, eps, fuel) == Done(o)
    ensures |initial| > 0
    ensures forall i :: 0 <= i < |o.history| ==> o.history[i].Within(Min(initial), Max(initial))
    ensures Min(initial) <= o.statistic <= Max(initial)
  {
    StartBounded(extract, initial, eps, fuel, o);
  }

  /** The engine's triples and its statistic never leave the range of the
      initial data. */
  lemma EquilibriumBounded(initial: seq<real>, eps: Eps, fuel: nat, o: Outcome)
    requires Equilibrium(initial, eps, fuel) == Done(o)
    ensures |initial| > 0
    ensures forall i :: 0 <= i < |o.history| ==> o.history[i].Within(Min(initial), Max(initial))
    ensures Min(initial) <= o.statistic <= Max(initial)
  {
    ComputeRangeBound();
    RunBounded(Compute, initial, eps, fuel, o);
  }

  lemma {:induction false} IterateFuelMonotone(extract: seq<real> --> Triple, data: seq<real>, eps: Eps,
                                               history: seq<Triple>, fuel: nat, more: nat)
    requires Total(extract) && |data| > 0
    requires Iterate(extract, data, eps, history, fuel).Done?
    requires fuel <= more
    ensures Iterate(extract, data, eps, history, more) == Iterate(extract, data, eps, history, fuel)
    decreases fuel
  {
    var t := extract(data);
    var h := history + [t];
    if !(eps.Threshold? && Converges(t.Values(), eps.epsilon)) && !Stagnated(h, Window) {
      IterateFuelMonotone(extract, t.Values(), eps, h, fuel - 1, more - 1);
    }
  }

  /** The round budget only cuts runs short: a run that finishes within a
      budget finishes the same way within any larger one. */
  lemma RunFuelMonotone(extract: seq<real> --> Triple, initial: seq<real>, eps: Eps, fuel: nat, more: nat)
    requires Total(extract)
    requires Run(extract, initial, eps, fuel).Done?
    requires fuel <= more
    ensures Run(extract, initial, eps, more) == Run(extract, initial, eps, fuel)
  {
    IterateFuelMonotone(extract, initial, eps, [], fuel, more);
  }

  /** No round of the plain iteration from `data`, within `fuel` rounds
      after `history`, meets an exit condition: no triple converged (when
      the threshold is numeric) and no history stagnated. */
  ghost predicate NoExitWithin(extract: seq<real> --> Triple, data: seq<real>, eps: Eps, history: seq<Triple>, fuel: nat)
    requires Total(extract) && |data| > 0
  {
    var full := history + Trace(extract, data, fuel);
    (eps.Threshold? ==> forall i :: |history| <= i < |full| ==> !Converges(full[i].Values(), eps.epsilon)) &&
    forall k :: |history| < k <= |full| ==> !StagnatedAfter(full, k)
  }

  /** Unfolds `NoExitWithin` by one round: no exit now, and none in the
      remaining rounds from the current triple. */
  lemma NoExitStep(extract: seq<real> --> Triple, data: seq<real>, eps: Eps, history: seq<Triple>, fuel: nat)
    requires Total(extract) && |data| > 0 && fuel > 0
    ensures NoExitWithin(extract, data, eps, history, fuel) <==>
      !(eps.Threshold? && Converges(extract(data).Values(), eps.epsilon)) &&
      !Stagnated(history + [extract(data)], Window) &&
      NoExitWithin(extract, extract(data).Values(), eps, history + [extract(data)], fuel - 1)
  {
    var t := extract(data);
    var h := history + [t];
    var full := history + Trace(extract, data, fuel);
    HistoryStep(extract, data, history, fuel);
    assert full == h + Trace(extract, t.Values(), fuel - 1);
    assert full[|history|] == t;
    assert full[..|h|] == h;
    var now := !(eps.Threshold? && Converges(t.Values(), eps.epsilon)) && !Stagnated(h, Window);
    var later := NoExitWithin(extract, t.Values(), eps, h, fuel - 1);
    if NoExitWithin(extract, data, eps, history, fuel) {
      assert !StagnatedAfter(full, |h|);
      assert now && later;
    }
    if now && later {
      assert eps.Threshold? ==> forall i :: |history| <= i < |full| ==> !Converges(full[i].Values(), eps.epsilon);
      assert forall k :: |history| < k <= |full| ==> !StagnatedAfter(full, k);
    }
  }

  /** The loop runs out of fuel exactly when no round within the fuel meets
      an exit condition. */
  lemma {:induction false} IterateExhausted(extract: seq<real> --> Triple, data: seq<real>, eps: Eps,
                                            history: seq<Triple>, fuel: nat)
    requires Total(extract) && |data| > 0
    ensures Iterate(extract, data, eps, history, fuel) == Failed(FuelExhausted)
        <==> NoExitWithin(extract, data, eps, history, fuel)
    decreases fuel
  {
    if fuel > 0 {
      var t := extract(data);
      IterateExhausted(extract, t.Values(), eps, history + [t], fuel - 1);
      NoExitStep(extract, data, eps, history, fuel);
    }
  }

  /** `IterateExhausted` for a loop started with an empty history. */
  lemma StartExhausted(extract: seq<real> --> Triple, initial: seq<real>, eps: Eps, fuel: nat)
    requires Total(extract) && |initial| > 0
    ensures Iterate(extract, initial, eps, [], fuel) == Failed(FuelExhausted) <==>
      (eps.Threshold? ==> forall i :: 0 <= i < fuel ==>
         !Converges(Trace(extract, initial, fuel)[i].Values(), eps.epsilon)) &&
      forall k :: 0 < k <= fuel ==> !StagnatedAfter(Trace(extract, initial, fuel), k)
  {
    IterateExhausted(extract, initial, eps, [], fuel);
    assert [] + Trace(extract, initial, fuel) == Trace(extract, initial, fuel);
  }

  /** A run on data runs out of fuel exactly when none of the first `fuel`
      rounds of the plain iteration meets an exit condition: no triple
      converged (when the threshold is numeric) and no history
      stagnated. */
  lemma RunExhausted(extract: seq<real> --> Triple, initial: seq<real>, eps: Eps, fuel: nat)
    requires Total(extract)
    ensures Run(extract, initial, eps, fuel) == Failed(FuelExhausted) <==>
      |initial| > 0 &&
      (eps.Threshold? ==> forall i :: 0 <= i < fuel ==>
         !Converges(Trace(extract, initial, fuel)[i].Values(), eps.epsilon)) &&
      forall k :: 0 < k <= fuel ==> !StagnatedAfter(Trace(extract, initial, fuel), k)
  {
    if |initial| > 0 {
      StartExhausted(extract, initial, eps, fuel);
    }
  }

  /** Number of rounds behind an outcome: the returned history plus, on a
      stagnation exit, the `Trim` entries cut from it. */
  function Rounds(o: Outcome): nat {
    if o.exit == ByConvergence then |o.history| else |o.history| + Trim
  }

  /** A loop that exits does so after `Rounds` rounds, and that many rounds
      of fuel are enough for the same result. */
  lemma {:induction false} IterateNeedsRounds(extract: seq<real> --> Triple, data: seq<real>, eps: Eps,
                                              history: seq<Triple>, fuel: nat, o: Outcome)
    requires Total(extract) && |data| > 0
    requires Iterate(extract, data, eps, history, fuel) == Done(o)
    ensures |history| < Rounds(o) <= |history| + fuel
    ensures Iterate(extract, data, eps, history, Rounds(o) - |history|) == Done(o)
    decreases fuel
  {
    var t := extract(data);
    var h := history + [t];
    if !(eps.Threshold? && Converges(t.Values(), eps.epsilon)) && !Stagnated(h, Window) {
      IterateNeedsRounds(extract, t.Values(), eps, h, fuel - 1, o);
    }
  }

  /** A run that exits after n rounds gives the same result with any fuel
      of at least n, and with no less: the round budget only cuts runs
      short. */
  lemma RunFinishesWithin(extract: seq<real> --> Triple, initial: seq<real>, eps: Eps, fuel: nat, o: Outcome)
    requires Total(extract)
    requires Run(extract, initial, eps, fuel) == Done(o)
    ensures 0 < Rounds(o) <= fuel
    ensures forall more: nat :: Rounds(o) <= more ==> Run(extract, initial, eps, more) == Done(o)
  {
    IterateNeedsRounds(extract, initial, eps, [], fuel, o);
    forall more: nat | Rounds(o) <= more
      ensures Run(extract, initial, eps, more) == Done(o)
    {
      IterateFuelMonotone(extract, initial, eps, [], Rounds(o), more);
    }
  }

  /** A single value with a non-negative threshold converges in one round
      with that value as the statistic. */
  lemma EquilibriumSingleValue(x: real, epsilon: real, fuel: nat)
    requires epsilon >= 0.0 && fuel >= 1
    ensures Equilibrium([x], Threshold(epsilon), fuel) == Done(Outcome(x, [Triple(x, x, x)], ByConvergence))
  {
    SingletonStatistics(x);
    ConvergesIffPairwise([x, x, x], epsilon);
  }

  /** With the `'*'` flag, a history of `k` copies of (x, x, x) and the
      dataset [x, x, x] run until the history holds `Window` copies, then
      exit by stagnation with one copy left. */
  lemma {:induction false} ConstantLoop(x: real, k: nat, fuel: nat)
    requires 1 <= k < Window && fuel >= Window - k
    ensures Total(Compute)
    ensures Iterate(Compute, [x, x, x], StagnationOnly, seq(k, _ => Triple(x, x, x)), fuel)
         == Done(Outcome(x, [Triple(x, x, x)], ByStagnation))
    decreases Window - k
  {
    ComputeTotal();
    var t := Triple(x, x, x);
    ConstantTripleIsFixedPoint(x);
    assert t.Values() == [x, x, x];
    var h := seq(k, _ => t) + [t];
    assert h == seq(k + 1, _ => t);
    StagnatedIffWindowConstant(h, Window);
    if k + 1 < Window {
      ConstantLoop(x, k + 1, fuel - 1);
    } else {
      assert Stagnated(h, Window);
      assert h[..|h| - Trim] == [t];
    }
  }

  /** With the `'*'` flag a single value runs until the history holds
      `Window` identical triples, then returns that value with the history
      cut back to one entry. */
  lemma EquilibriumSingleValueStagnationOnly(x: real, fuel: nat)
    requires fuel >= Window
    ensures Equilibrium([x], StagnationOnly, fuel) == Done(Outcome(x, [Triple(x, x, x)], ByStagnation))
  {
    var t := Triple(x, x, x);
    SingletonStatistics(x);
    assert t.Values() == [x, x, x];
    assert [] + [t] == seq(1, _ => t);
    ConstantLoop(x, 1, fuel - 1);
  }
}

=== FILE: exactness.dfy ===
/** What exact arithmetic changes about the stagnation exit. With reals, the
    loop stagnates only when its triples become exactly equal, so a run whose
    triples only approach a constant never stops under the `'*'` flag. In
    floating point the same run reaches a fixed point once a value
    underflows. */
module Exactness {
  import Sorting
  import opened Statistics
  import opened Convergence
  import opened Engine

  lemma DecayMean(a: real)
    ensures Mean([a, 0.0, 0.0]) == a / 3.0
  {
    var d := [a, 0.0, 0.0];
    assert d[1..] == [0.0, 0.0] && d[1..][1..] == [0.0] && d[1..][1..][1..] == [];
    assert Sum([0.0]) == 0.0 && Sum([0.0, 0.0]) == 0.0;
  }

  lemma DecayMedian(a: real)
    requires a > 0.0
    ensures Median([a, 0.0, 0.0]) == 0.0
  {
    var d := [a, 0.0, 0.0];
    var sorted := [0.0, 0.0, a];
    assert Sorting.Sorted(sorted);
    assert multiset(sorted) == multiset(d);
    MedianFromAnySortedArrangement(d, sorted);
  }

  lemma DecayMode(a: real)
    requires a > 0.0
    ensures Mode([a, 0.0, 0.0]) == 0.0
  {
    var d := [a, 0.0, 0.0];
    assert d[1..] == [0.0, 0.0] && d[1..][1..] == [0.0] && d[1..][1..][1..] == [];
    assert Count([0.0], 0.0) == 1 && Count([0.0], a) == 0;
    assert Count([0.0, 0.0], 0.0) == 2 && Count([0.0, 0.0], a) == 0;
    assert Count(d, 0.0) == 2 && Count(d, a) == 1;
    assert !Distinct(d) by { assert d[1] == d[2]; }
    assert IsModeOf(d, 0.0);
    ModeUnique(d, 0.0);
  }

  /** One round on [a, 0, 0]: the mean is a/3, and the median and the mode
      (0 occurs twice) are 0. */
  lemma DecayRound(a: real)
    requires a > 0.0
    ensures Compute([a, 0.0, 0.0]) == Triple(a / 3.0, 0.0, 0.0)
  {
    DecayMean(a);
    DecayMedian(a);
    DecayMode(a);
  }

  /** From [a, 0, 0] with a > 0, after a history ending in (a, 0, 0) or
      empty, every round yields a new triple (a/3, 0, 0), so the history
      never stagnates and the `'*'` run uses up any fuel. */
  lemma {:induction false} DecayNeverStagnates(a: real, h: seq<Triple>, fuel: nat)
    requires a > 0.0
    requires |h| == 0 || h[|h| - 1] == Triple(a, 0.0, 0.0)
    ensures Total(Compute)
    ensures Iterate(Compute, [a, 0.0, 0.0], StagnationOnly, h, fuel) == Failed(FuelExhausted)
    decreases fuel
  {
    ComputeTotal();
    if fuel > 0 {
      DecayRound(a);
      var t := Triple(a / 3.0, 0.0, 0.0);
      var next := h + [t];
      if |next| >= Window {
        assert next[|next| - 2] != next[|next| - 1];
      }
      assert t.Values() == [a / 3.0, 0.0, 0.0];
      DecayNeverStagnates(a / 3.0, next, fuel - 1);
    }
  }

  /** With the `'*'` flag the engine never stops on [1, 0, 0]: its triples
      (3^-k, 0, 0) are all different. */
  lemma StagnationOnlyDecayNeverEnds(fuel: nat)
    ensures Equilibrium([1.0, 0.0, 0.0], StagnationOnly, fuel) == Failed(FuelExhausted)
  {
    DecayNeverStagnates(1.0, [], fuel);
  }
}

=== FILE: invariance.dfy ===
/** Invariance of the engine under a change of units and origin. Data mapped
    by x ↦ scale·x + offset with a positive scale, run with the threshold
    multiplied by the same scale, give the original run with every value
    mapped the same way. Translation (scale 1) and scaling (offset 0) are
    the two special cases. */
module Invariance {
  import opened Sorting
  import opened Statistics
  import opened Convergence
  import opened Engine

  /** The map x ↦ scale·x + offset. */
  datatype Affine = Affine(scale: real, offset: real) {
    function Apply(x: real): real {
      scale * x + offset
    }
  }

  /** Every element of `s` mapped by `f`, in order. */
  function MapSeq(f: Affine, s: seq<real>): (r: seq<real>)
    ensures |r| == |s|
    ensures forall i :: 0 <= i < |s| ==> r[i] == f.Apply(s[i])
  {
    if |s| == 0 then [] else [f.Apply(s[0])] + MapSeq(f, s[1..])
  }

  function MapTriple(f: Affine, t: Triple): Triple {
    Triple(f.Apply(t.mean), f.Apply(t.median), f.Apply(t.mode))
  }

  function MapHistory(f: Affine, h: seq<Triple>): (r: seq<Triple>)
    ensures |r| == |h|
    ensures forall i :: 0 <= i < |h| ==> r[i] == MapTriple(f, h[i])
  {
    seq(|h|, i requires 0 <= i < |h| => MapTriple(f, h[i]))
  }

  /** A numeric threshold is a distance, so it scales but does not shift. */
  function MapEps(f: Affine, eps: Eps): Eps {
    match eps
    case Threshold(e) => Threshold(f.scale * e)
    case StagnationOnly => StagnationOnly
  }

  /** The statistic and the history of a finished run mapped by `f`; a
      failure stays the same failure. */
  function MapResult(f: Affine, r: Result): Result {
    match r
    case Done(o) => Done(Outcome(f.Apply(o.statistic), MapHistory(f, o.history), o.exit))
    case Failed(e) => Failed(e)
  }

  /** A positive scale keeps order, and so also equality. */
  lemma ApplyMonotone(f: Affine, x: real, y: real)
    requires f.scale > 0.0
    ensures x <= y <==> f.Apply(x) <= f.Apply(y)
    ensures x == y <==> f.Apply(x) == f.Apply(y)
  {
  }

  lemma MapTail(f: Affine, s: seq<real>)
    requires |s| > 0
    ensures MapSeq(f, s)[1..] == MapSeq(f, s[1..])
  {
  }

  lemma {:induction false} SumMap(f: Affine, s: seq<real>)
    ensures Sum(MapSeq(f, s)) == f.scale * Sum(s) + (|s| as real) * f.offset
    decreases |s|
  {
    if |s| > 0 {
      SumMap(f, s[1..]);
      MapTail(f, s);
    }
  }

  /** The mean follows the change of units. */
  lemma MeanMap(f: Affine, s: seq<real>)
    requires |s| > 0
    ensures Mean(MapSeq(f, s)) == f.Apply(Mean(s))
  {
    SumMap(f, s);
    var n := |s| as real;
    var q := Sum(s) / n;
    assert q * n == Sum(s);
    assert f.Apply(q) * n == f.scale * Sum(s) + n * f.offset;
  }

  /** The least and the greatest element follow a change of units with a
      positive scale. */
  lemma {:induction false} MinMaxMap(f: Affine, s: seq<real>)
    requires f.scale > 0.0 && |s| > 0
    ensures Min(MapSeq(f, s)) == f.Apply(Min(s))
    ensures Max(MapSeq(f, s)) == f.Apply(Max(s))
    decreases |s|
  {
    if |s| > 1 {
      MinMaxMap(f, s[1..]);
      MapTail(f, s);
      ApplyMonotone(f, s[0], Min(s[1..]));
      ApplyMonotone(f, Max(s[1..]), s[0]);
    }
  }

  lemma {:induction false} InsertMap(f: Affine, x: real, s: seq<real>)
    requires f.scale > 0.0
    ensures MapSeq(f, Insert(x, s)) == Insert(f.Apply(x), MapSeq(f, s))
    decreases |s|
  {
    if |s| > 0 {
      ApplyMonotone(f, x, s[0]);
      MapTail(f, s);
      if x > s[0] {
        InsertMap(f, x, s[1..]);
      }
    }
  }

  /** Sorting commutes with a change of units with a positive scale. */
  lemma {:induction false} SortMap(f: Affine, s: seq<real>)
    requires f.scale > 0.0
    ensures Sort(MapSeq(f, s)) == MapSeq(f, Sort(s))
    decreases |s|
  {
    if |s| > 0 {
      SortMap(f, s[1..]);
      MapTail(f, s);
      InsertMap(f, s[0], Sort(s[1..]));
    }
  }

  /** The middle of a sequence follows the change of units. */
  lemma MiddleMap(f: Affine, sorted: seq<real>)
    requires |sorted| > 0
    ensures Middle(MapSeq(f, sorted)) == f.Apply(Middle(sorted))
  {
  }

  /** The median follows a change of units with a positive scale. */
  lemma MedianMap(f: Affine, s: seq<real>)
    requires f.scale > 0.0 && |s| > 0
    ensures Median(MapSeq(f, s)) == f.Apply(Median(s))
  {
    SortMap(f, s);
    MiddleMap(f, Sort(s));
  }

  /** A change of units with a positive scale keeps every count. */
  lemma {:induction false} CountMap(f: Affine, s: seq<real>, v: real)
    requires f.scale > 0.0
    ensures Count(MapSeq(f, s), f.Apply(v)) == Count(s, v)
    decreases |s|
  {
    if |s| > 0 {
      CountMap(f, s[1..], v);
      MapTail(f, s);
      ApplyMonotone(f, s[0], v);
    }
  }

  lemma DistinctMap(f: Affine, s: seq<real>)
    requires f.scale > 0.0
    ensures Distinct(MapSeq(f, s)) <==> Distinct(s)
  {
  }

  /** A mode of the data, mapped, is a mode of the mapped data. */
  lemma ModeOfMap(f: Affine, d: seq<real>, m: real)
    requires f.scale > 0.0 && |d| > 0
    requires !Distinct(d) && IsModeOf(d, m)
    ensures IsModeOf(MapSeq(f, d), f.Apply(m))
  {
    var e := MapSeq(f, d);
    DistinctMap(f, d);
    CountMap(f, d, m);
    var j :| 0 <= j < |d| && d[j] == m;
    assert e[j] == f.Apply(m);
    forall i | 0 <= i < |e|
      ensures Count(e, e[i]) <= Count(e, f.Apply(m))
      ensures Count(e, e[i]) == Count(e, f.Apply(m)) ==> f.Apply(m) <= e[i]
    {
      CountMap(f, d, d[i]);
      ApplyMonotone(f, m, d[i]);
    }
  }

  /** The mode follows a change of units with a positive scale, in both
      of its branches. */
  lemma ModeMap(f: Affine, d: seq<real>)
    requires f.scale > 0.0 && |d| > 0
    ensures Mode(MapSeq(f, d)) == f.Apply(Mode(d))
  {
    DistinctMap(f, d);
    if Distinct(d) {
      ModeFallback(d);
      ModeFallback(MapSeq(f, d));
      MeanMap(f, d);
    } else {
      ModeMeetsDefinition(d);
      ModeOfMap(f, d, Mode(d));
      ModeUnique(MapSeq(f, d), f.Apply(Mode(d)));
    }
  }

  /** One round's statistics follow a change of units with a positive
      scale. */
  lemma ComputeMap(f: Affine, d: seq<real>)
    requires f.scale > 0.0 && |d| > 0
    ensures Compute(MapSeq(f, d)) == MapTriple(f, Compute(d))
  {
    MeanMap(f, d);
    MedianMap(f, d);
    ModeMap(f, d);
  }

  /** Convergence is unchanged when the values and the threshold are
      scaled alike. */
  lemma ConvergesMap(f: Affine, s: seq<real>, epsilon: real)
    requires f.scale > 0.0
    ensures Converges(MapSeq(f, s), f.scale * epsilon) == Converges(s, epsilon)
  {
    if |s| >= 2 {
      MinMaxMap(f, s);
      var spread := Max(s) - Min(s);
      assert Max(MapSeq(f, s)) - Min(MapSeq(f, s)) == f.scale * spread;
      assert f.scale * epsilon - f.scale * spread == f.scale * (epsilon - spread);
      if spread > epsilon {
        assert f.scale * (spread - epsilon) > 0.0;
      }
    }
  }

  /** Stagnation is unchanged by a change of units with a positive
      scale. */
  lemma StagnatedMap(f: Affine, h: seq<Triple>)
    requires f.scale > 0.0
    ensures Stagnated(MapHistory(f, h), Window) == Stagnated(h, Window)
  {
  }

  /** An extractor that follows the change of units `f`. */
  ghost predicate Equivariant(extract: seq<real> --> Triple, f: Affine)
    requires Total(extract)
  {
    forall d: seq<real> {:trigger MapSeq(f, d)} :: |d| > 0 ==> extract(MapSeq(f, d)) == MapTriple(f, extract(d))
  }

  /** The facts about one round that the mapped and the original loop
      share. */
  lemma RoundMap(f: Affine, t: Triple, h: seq<Triple>, eps: Eps)
    requires f.scale > 0.0
    ensures MapTriple(f, t).Values() == MapSeq(f, t.Values())
    ensures MapHistory(f, h) + [MapTriple(f, t)] == MapHistory(f, h + [t])
    ensures MapEps(f, eps).Threshold? == eps.Threshold?
    ensures eps.Threshold? ==>
      Converges(MapTriple(f, t).Values(), MapEps(f, eps).epsilon) == Converges(t.Values(), eps.epsilon)
    ensures Stagnated(MapHistory(f, h + [t]), Window) == Stagnated(h + [t], Window)
    ensures MapTriple(f, t).Average() == f.Apply(t.Average())
    ensures |h + [t]| >= Window ==>
      MapHistory(f, h + [t])[..|h + [t]| - Trim] == MapHistory(f, (h + [t])[..|h + [t]| - Trim])
  {
    assert MapTriple(f, t).Values() == MapSeq(f, t.Values());
    if eps.Threshold? {
      ConvergesMap(f, t.Values(), eps.epsilon);
    }
    StagnatedMap(f, h + [t]);
  }

  /** A round that exits gives the mapped exit on the mapped data. */
  lemma StopMap(extract: seq<real> --> Triple, f: Affine, d: seq<real>, eps: Eps, h: seq<Triple>, fuel: nat)
    requires f.scale > 0.0 && Total(extract) && Equivariant(extract, f) && |d| > 0 && fuel > 0
    requires (eps.Threshold? && Converges(extract(d).Values(), eps.epsilon)) || Stagnated(h + [extract(d)], Window)
    ensures Iterate(extract, MapSeq(f, d), MapEps(f, eps), MapHistory(f, h), fuel)
         == MapResult(f, Iterate(extract, d, eps, h, fuel))
  {
    var t := extract(d);
    assert extract(MapSeq(f, d)) == MapTriple(f, t);
    RoundMap(f, t, h, eps);
  }

  /** A round that does not exit continues, on the mapped data, with the
      mapped triple. */
  lemma ContinueMap(extract: seq<real> --> Triple, f: Affine, d: seq<real>, eps: Eps, h: seq<Triple>, fuel: nat)
    requires f.scale > 0.0 && Total(extract) && Equivariant(extract, f) && |d| > 0 && fuel > 0
    requires !(eps.Threshold? && Converges(extract(d).Values(), eps.epsilon)) && !Stagnated(h + [extract(d)], Window)
    ensures Iterate(extract, MapSeq(f, d), MapEps(f, eps), MapHistory(f, h), fuel)
         == Iterate(extract, MapSeq(f, extract(d).Values()), MapEps(f, eps), MapHistory(f, h + [extract(d)]), fuel - 1)
  {
    var t := extract(d);
    assert extract(MapSeq(f, d)) == MapTriple(f, t);
    RoundMap(f, t, h, eps);
  }

  /** The loop, from any point, commutes with a change of units that its
      extractor follows. */
  lemma {:induction false} IterateMap(extract: seq<real> --> Triple, f: Affine, d: seq<real>, eps: Eps,
                                      h: seq<Triple>, fuel: nat)
    requires f.scale > 0.0 && Total(extract) && Equivariant(extract, f) && |d| > 0
    ensures Iterate(extract, MapSeq(f, d), MapEps(f, eps), MapHistory(f, h), fuel)
         == MapResult(f, Iterate(extract, d, eps, h, fuel))
    decreases fuel
  {
    if fuel > 0 {
      var t := extract(d);
      if (eps.Threshold? && Converges(t.Values(), eps.epsilon)) || Stagnated(h + [t], Window) {
        StopMap(extract, f, d, eps, h, fuel);
      } else {
        ContinueMap(extract, f, d, eps, h, fuel);
        IterateMap(extract, f, t.Values(), eps, h + [t], fuel - 1);
      }
    }
  }

  lemma ComputeEquivariant(f: Affine)
    requires f.scale > 0.0
    ensures Total(Compute) && Equivariant(Compute, f)
  {
    ComputeTotal();
    forall d: seq<real> | |d| > 0
      ensures Compute(MapSeq(f, d)) == MapTriple(f, Compute(d))
    {
      ComputeMap(f, d);
    }
  }

  /** The engine commutes with a change of units and origin: the mapped
      data, with the threshold scaled, give the mapped statistic and the
      mapped history, through the same exit; an empty dataset or an
      exhausted run fails alike. */
  lemma EquilibriumMap(f: Affine, d: seq<real>, eps: Eps, fuel: nat)
    requires f.scale > 0.0
    ensures Equilibrium(MapSeq(f, d), MapEps(f, eps), fuel) == MapResult(f, Equilibrium(d, eps, fuel))
  {
    if |d| > 0 {
      ComputeEquivariant(f);
      IterateMap(Compute, f, d, eps, [], fuel);
      assert MapHistory(f, []) == [];
    }
  }

  /** Translation: adding `c` to every value adds `c` to the statistic and
      to every returned triple, with the threshold unchanged. */
  lemma EquilibriumShift(d: seq<real>, c: real, eps: Eps, fuel: nat)
    ensures Equilibrium(MapSeq(Affine(1.0, c), d), eps, fuel) == MapResult(Affine(1.0, c), Equilibrium(d, eps, fuel))
  {
    EquilibriumMap(Affine(1.0, c), d, eps, fuel);
    assert MapEps(Affine(1.0, c), eps) == eps;
  }

  /** Scaling: multiplying every value and the threshold by `c > 0`
      multiplies the statistic and every returned triple by `c`. */
  lemma EquilibriumScale(d: seq<real>, c: real, eps: Eps, fuel: nat)
    requires c > 0.0
    ensures Equilibrium(MapSeq(Affine(c, 0.0), d), MapEps(Affine(c, 0.0), eps), fuel)
         == MapResult(Affine(c, 0.0), Equilibrium(d, eps, fuel))
  {
    EquilibriumMap(Affine(c, 0.0), d, eps, fuel);
  }
}

=== FILE: sorting.dfy ===
/** Ascending sort of a sequence of reals, the ordering step that the
    median of a dataset is defined on. */
module Sorting {

  /** Every element is at most every later element. */
  ghost predicate Sorted(s: seq<real>) {
    forall i, j :: 0 <= i < j < |s| ==> s[i] <= s[j]
  }

  /** Puts `x` into the sorted sequence `s` just before the first element
      that is not smaller than it. */
  function Insert(x: real, s: seq<real>): (r: seq<real>)
    ensures |r| == |s| + 1
  {
    if |s| == 0 then [x]
    else if x <= s[0] then [x] + s
    else [s[0]] + Insert(x, s[1..])
  }

  /** Insertion adds exactly one occurrence of `x`. */
  lemma {:induction false} InsertPermutes(x: real, s: seq<real>)
    ensures multiset(Insert(x, s)) == multiset(s) + multiset{x}
  {
    if |s| > 0 && x > s[0] {
      InsertPermutes(x, s[1..]);
      assert s == [s[0]] + s[1..];
    }
  }

  /** Insertion into sorted data keeps it sorted. */
  lemma {:induction false} InsertSorted(x: real, s: seq<real>)
    requires Sorted(s)
    ensures Sorted(Insert(x, s))
  {
    if |s| > 0 && x > s[0] {
      var tail := s[1..];
      var rest := Insert(x, tail);
      var r := Insert(x, s);
      assert r == [s[0]] + rest;
      assert Sorted(tail);
      InsertSorted(x, tail);
      InsertPermutes(x, tail);
      forall j | 0 <= j < |rest|
        ensures s[0] <= rest[j]
      {
        assert rest[j] in multiset(rest);
        if rest[j] != x {
          assert rest[j] in multiset(tail);
          var k :| 0 <= k < |tail| && tail[k] == rest[j];
          assert tail[k] == s[k + 1];
        }
      }
      forall i, j | 0 <= i < j < |r|
        ensures r[i] <= r[j]
      {
        if i > 0 {
          assert r[i] == rest[i - 1] && r[j] == rest[j - 1];
        } else {
          assert r[j] == rest[j - 1];
        }
      }
    }
  }

  /** Insertion sort, the ascending copy of `s`. */
  function Sort(s: seq<real>): (r: seq<real>)
    ensures |r| == |s|
  {
    if |s| == 0 then [] else Insert(s[0], Sort(s[1..]))
  }

  /** The sorted copy is in ascending order and holds exactly the input's
      values, each as often as in the input. */
  lemma {:induction false} SortSortsAndPermutes(s: seq<real>)
    ensures Sorted(Sort(s))
    ensures multiset(Sort(s)) == multiset(s)
  {
    if |s| > 0 {
      SortSortsAndPermutes(s[1..]);
      InsertSorted(s[0], Sort(s[1..]));
      InsertPermutes(s[0], Sort(s[1..]));
      assert s == [s[0]] + s[1..];
    }
  }

  /** The first element of a sorted sequence is its least value. */
  lemma SortedHeadLeast(s: seq<real>, x: real)
    requires Sorted(s) && x in multiset(s)
    ensures s[0] <= x
  {
    var k :| 0 <= k < |s| && s[k] == x;
    assert k == 0 || s[0] <= s[k];
  }

  /** Two sorted sequences with the same non-empty multiset start with the
      same value. */
  lemma SameHead(a: seq<real>, b: seq<real>)
    requires Sorted(a) && Sorted(b) && |a| > 0
    requires multiset(a) == multiset(b)
    ensures |b| > 0 && a[0] == b[0]
  {
    assert a[0] in multiset(b);
    assert b[0] in multiset(a);
    SortedHeadLeast(a, b[0]);
    SortedHeadLeast(b, a[0]);
  }

  /** The tail of a non-empty sorted sequence is sorted and holds one
      occurrence fewer of its head. */
  lemma SortedTail(s: seq<real>)
    requires Sorted(s) && |s| > 0
    ensures Sorted(s[1..])
    ensures multiset(s[1..]) == multiset(s) - multiset{s[0]}
  {
    assert s == [s[0]] + s[1..];
  }

  /** Two sorted sequences holding the same multiset of values are equal:
      the sorted order of a dataset does not depend on how it was listed. */
  lemma {:induction false} SortedUnique(a: seq<real>, b: seq<real>)
    requires Sorted(a) && Sorted(b)
    requires multiset(a) == multiset(b)
    ensures a == b
  {
    if |a| == 0 {
      assert |b| == |multiset(b)| == 0;
    } else {
      SameHead(a, b);
      SortedTail(a);
      SortedTail(b);
      SortedUnique(a[1..], b[1..]);
      assert a == [a[0]] + a[1..];
      assert b == [b[0]] + b[1..];
    }
  }

  /** Sorting is insensitive to the order of its input. */
  lemma SortPermutationInvariant(a: seq<real>, b: seq<real>)
    requires multiset(a) == multiset(b)
    ensures Sort(a) == Sort(b)
  {
    SortSortsAndPermutes(a);
    SortSortsAndPermutes(b);
    SortedUnique(Sort(a), Sort(b));
  }
}

=== FILE: statistics.dfy ===
/** The statistic extractor: mean, median and mode of a non-empty dataset,
    with the mode's smallest-value tie-break and its fall-back to the mean
    when no value repeats. Values are exact reals. */
module Statistics {
  import opened Sorting

  /** Sum of the elements, taken from the front. */
  function Sum(s: seq<real>): real {
    if |s| == 0 then 0.0 else s[0] + Sum(s[1..])
  }

  /** Smallest element of a non-empty sequence (Python's `min`). */
  function Min(s: seq<real>): real
    requires |s| > 0
  {
    if |s| == 1 then s[0]
    else
      var m := Min(s[1..]);
      if s[0] <= m then s[0] else m
  }

  /** Largest element of a non-empty sequence (Python's `max`). */
  function Max(s: seq<real>): real
    requires |s| > 0
  {
    if |s| == 1 then s[0]
    else
      var m := Max(s[1..]);
      if s[0] >= m then s[0] else m
  }

  /** The minimum is an element and no element is smaller. */
  lemma {:induction false} MinIsLeast(s: seq<real>)
    requires |s| > 0
    ensures Min(s) in s
    ensures forall i :: 0 <= i < |s| ==> Min(s) <= s[i]
  {
    if |s| > 1 {
      MinIsLeast(s[1..]);
      assert forall i :: 1 <= i < |s| ==> s[i] == s[1..][i - 1];
    }
  }

  /** The maximum is an element and no element is larger. */
  lemma {:induction false} MaxIsGreatest(s: seq<real>)
    requires |s| > 0
    ensures Max(s) in s
    ensures forall i :: 0 <= i < |s| ==> s[i] <= Max(s)
  {
    if |s| > 1 {
      MaxIsGreatest(s[1..]);
      assert forall i :: 1 <= i < |s| ==> s[i] == s[1..][i - 1];
    }
  }

  /** Every element lies in the closed interval [lo, hi]. */
  ghost predicate AllWithin(s: seq<real>, lo: real, hi: real) {
    forall i :: 0 <= i < |s| ==> lo <= s[i] <= hi
  }

  /** A sum of n values from [lo, hi] lies in [n*lo, n*hi]. */
  lemma {:induction false} SumBounds(s: seq<real>, lo: real, hi: real)
    requires AllWithin(s, lo, hi)
    ensures (|s| as real) * lo <= Sum(s) <= (|s| as real) * hi
  {
    if |s| > 0 {
      assert AllWithin(s[1..], lo, hi) by {
        assert forall i :: 0 <= i < |s| - 1 ==> s[1..][i] == s[i + 1];
      }
      SumBounds(s[1..], lo, hi);
    }
  }

  /** Arithmetic mean: the sum divided by the length. */
  function Mean(s: seq<real>): real
    requires |s| > 0
  {
    Sum(s) / (|s| as real)
  }

  /** Every element lies between the smallest and the largest one. */
  lemma WithinMinMax(s: seq<real>)
    requires |s| > 0
    ensures AllWithin(s, Min(s), Max(s))
  {
    MinIsLeast(s);
    MaxIsGreatest(s);
  }

  /** The mean of values drawn from [lo, hi] lies in [lo, hi]. */
  lemma MeanWithin(s: seq<real>, lo: real, hi: real)
    requires |s| > 0 && AllWithin(s, lo, hi)
    ensures lo <= Mean(s) <= hi
  {
    SumBounds(s, lo, hi);
    QuotientBounds(Sum(s), |s| as real, lo, hi);
  }

  /** The mean lies between the smallest and the largest element. */
  lemma MeanBounds(s: seq<real>)
    requires |s| > 0
    ensures Min(s) <= Mean(s) <= Max(s)
  {
    WithinMinMax(s);
    MeanWithin(s, Min(s), Max(s));
  }

  /** Dividing n*lo <= x <= n*hi by a positive n keeps x/n in [lo, hi]. */
  lemma QuotientBounds(x: real, n: real, lo: real, hi: real)
    requires n > 0.0
    requires n * lo <= x <= n * hi
    ensures lo <= x / n <= hi
  {
    var q := x / n;
    assert q * n == x;
    assert (q - lo) * n == x - lo * n;
    assert (hi - q) * n == hi * n - x;
  }

  /** The mean of a dataset whose every element is `c` is `c` itself. */
  lemma MeanOfConstant(s: seq<real>, c: real)
    requires |s| > 0
    requires forall i :: 0 <= i < |s| ==> s[i] == c
    ensures Mean(s) == c
  {
    MeanWithin(s, c, c);
  }

  /** The middle of an already sorted sequence: its middle element for an
      odd length, the average of its two middle elements for an even one. */
  function Middle(sorted: seq<real>): real
    requires |sorted| > 0
  {
    var n := |sorted|;
    if n % 2 == 1 then sorted[n / 2] else (sorted[n / 2 - 1] + sorted[n / 2]) / 2.0
  }

  /** Median as `statistics.median` computes it: the middle of the sorted
      copy of the data. */
  function Median(s: seq<real>): real
    requires |s| > 0
  {
    Middle(Sort(s))
  }

  /** The two middle elements of a sorted sequence, which coincide for an
      odd length, enclose its middle. */
  lemma MiddleBetween(sorted: seq<real>)
    requires |sorted| > 0 && Sorted(sorted)
    ensures sorted[(|sorted| - 1) / 2] <= Middle(sorted) <= sorted[|sorted| / 2]
  {
    var n := |sorted|;
    if n % 2 == 0 {
      assert sorted[n / 2 - 1] <= sorted[n / 2];
    }
  }

  /** The two middle elements of the sorted copy enclose the median. */
  lemma MedianBetweenMiddles(s: seq<real>)
    requires |s| > 0
    ensures Sorted(Sort(s))
    ensures Sort(s)[(|s| - 1) / 2] <= Median(s) <= Sort(s)[|s| / 2]
  {
    SortSortsAndPermutes(s);
    MiddleBetween(Sort(s));
  }

  /** The median lies between the smallest and the largest element. */
  lemma MedianBounds(s: seq<real>)
    requires |s| > 0
    ensures Min(s) <= Median(s) <= Max(s)
  {
    var sorted := Sort(s);
    var n := |s|;
    MedianBetweenMiddles(s);
    SortSortsAndPermutes(s);
    WithinMinMax(s);
    assert sorted[(n - 1) / 2] in multiset(s) && sorted[n / 2] in multiset(s);
  }

  /** The median does not depend on the order in which the data are listed. */
  lemma MedianPermutationInvariant(a: seq<real>, b: seq<real>)
    requires |a| > 0
    requires multiset(a) == multiset(b)
    ensures |b| > 0
    ensures Median(a) == Median(b)
  {
    assert |b| == |multiset(b)| == |multiset(a)| == |a|;
    SortPermutationInvariant(a, b);
  }

  /** Any ascending arrangement of the data determines the median: its
      middle element for an odd count, the average of its two middle
      elements for an even count. */
  lemma MedianFromAnySortedArrangement(s: seq<real>, sorted: seq<real>)
    requires |s| > 0
    requires Sorted(sorted) && multiset(sorted) == multiset(s)
    ensures |sorted| == |s|
    ensures |s| % 2 == 1 ==> Median(s) == sorted[|s| / 2]
    ensures |s| % 2 == 0 ==> Median(s) == (sorted[|s| / 2 - 1] + sorted[|s| / 2]) / 2.0
  {
    assert |sorted| == |multiset(sorted)| == |multiset(s)| == |s|;
    SortSortsAndPermutes(s);
    SortedUnique(Sort(s), sorted);
  }

  /** How many elements of `s` are strictly below `v`. */
  function CountBelow(s: seq<real>, v: real): nat {
    if |s| == 0 then 0 else (if s[0] < v then 1 else 0) + CountBelow(s[1..], v)
  }

  /** How many elements of `s` are strictly above `v`. */
  function CountAbove(s: seq<real>, v: real): nat {
    if |s| == 0 then 0 else (if s[0] > v then 1 else 0) + CountAbove(s[1..], v)
  }

  lemma {:induction false} CountsInsert(x: real, s: seq<real>, v: real)
    ensures CountBelow(Insert(x, s), v) == (if x < v then 1 else 0) + CountBelow(s, v)
    ensures CountAbove(Insert(x, s), v) == (if x > v then 1 else 0) + CountAbove(s, v)
  {
    if |s| > 0 && x > s[0] {
      assert Insert(x, s)[1..] == Insert(x, s[1..]);
      CountsInsert(x, s[1..], v);
    }
  }

  /** Sorting moves elements but does not change how many lie below or
      above any value. */
  lemma {:induction false} CountsSort(s: seq<real>, v: real)
    ensures CountBelow(Sort(s), v) == CountBelow(s, v)
    ensures CountAbove(Sort(s), v) == CountAbove(s, v)
  {
    if |s| > 0 {
      CountsSort(s[1..], v);
      CountsInsert(s[0], Sort(s[1..]), v);
    }
  }

  lemma {:induction false} CountsSplit(a: seq<real>, b: seq<real>, v: real)
    ensures CountBelow(a + b, v) == CountBelow(a, v) + CountBelow(b, v)
    ensures CountAbove(a + b, v) == CountAbove(a, v) + CountAbove(b, v)
  {
    if |a| > 0 {
      assert (a + b)[1..] == a[1..] + b;
      assert (a + b)[0] == a[0];
      CountsSplit(a[1..], b, v);
    } else {
      assert a + b == b;
    }
  }

  lemma {:induction false} CountsAtMostLength(s: seq<real>, v: real)
    ensures CountBelow(s, v) <= |s| && CountAbove(s, v) <= |s|
  {
    if |s| > 0 {
      CountsAtMostLength(s[1..], v);
    }
  }

  lemma {:induction false} CountBelowNone(s: seq<real>, v: real)
    requires forall i :: 0 <= i < |s| ==> v <= s[i]
    ensures CountBelow(s, v) == 0
  {
    if |s| > 0 {
      assert forall i :: 0 <= i < |s| - 1 ==> s[1..][i] == s[i + 1];
      CountBelowNone(s[1..], v);
    }
  }

  lemma {:induction false} CountAboveNone(s: seq<real>, v: real)
    requires forall i :: 0 <= i < |s| ==> s[i] <= v
    ensures CountAbove(s, v) == 0
  {
    if |s| > 0 {
      assert forall i :: 0 <= i < |s| - 1 ==> s[1..][i] == s[i + 1];
      CountAboveNone(s[1..], v);
    }
  }

  /** In sorted data, a value no greater than the element at index k has
      at most k elements strictly below it. */
  lemma SortedCountBelow(s: seq<real>, k: nat, v: real)
    requires Sorted(s) && k < |s| && v <= s[k]
    ensures CountBelow(s, v) <= k
  {
    assert s == s[..k] + s[k..];
    CountsSplit(s[..k], s[k..], v);
    CountBelowNone(s[k..], v);
    CountsAtMostLength(s[..k], v);
  }

  /** In sorted data, a value no smaller than the element at index k has
      at most |s| - k - 1 elements strictly above it. */
  lemma SortedCountAbove(s: seq<real>, k: nat, v: real)
    requires Sorted(s) && k < |s| && s[k] <= v
    ensures CountAbove(s, v) <= |s| - k - 1
  {
    assert s == s[..k + 1] + s[k + 1..];
    CountsSplit(s[..k + 1], s[k + 1..], v);
    CountAboveNone(s[..k + 1], v);
    CountsAtMostLength(s[k + 1..], v);
  }

  /** The median splits the data: at most half of the elements lie strictly
      below it and at most half lie strictly above it. */
  lemma MedianSplitsData(s: seq<real>)
    requires |s| > 0
    ensures 2 * CountBelow(s, Median(s)) <= |s|
    ensures 2 * CountAbove(s, Median(s)) <= |s|
  {
    var sorted := Sort(s);
    var n := |sorted|;
    var m := Median(s);
    MedianBetweenMiddles(s);
    CountsSort(s, m);
    SortedCountBelow(sorted, n / 2, m);
    SortedCountAbove(sorted, (n - 1) / 2, m);
  }

  /** Number of occurrences of `v` in `s` (what Python's `Counter` tallies). */
  function Count(s: seq<real>, v: real): nat {
    if |s| == 0 then 0 else (if s[0] == v then 1 else 0) + Count(s[1..], v)
  }

  /** No value occurs twice. */
  ghost predicate Distinct(s: seq<real>) {
    forall i, j :: 0 <= i < j < |s| ==> s[i] != s[j]
  }

  lemma {:induction false} CountPositive(s: seq<real>, i: nat)
    requires i < |s|
    ensures Count(s, s[i]) >= 1
  {
    if i > 0 {
      CountPositive(s[1..], i - 1);
    }
  }

  lemma {:induction false} CountRepeated(s: seq<real>, i: nat, j: nat)
    requires i < j < |s| && s[i] == s[j]
    ensures Count(s, s[i]) >= 2
  {
    if i == 0 {
      CountPositive(s[1..], j - 1);
    } else {
      CountRepeated(s[1..], i - 1, j - 1);
    }
  }

  lemma {:induction false} CountAbsent(s: seq<real>, v: real)
    requires forall i :: 0 <= i < |s| ==> s[i] != v
    ensures Count(s, v) == 0
  {
    if |s| > 0 {
      assert forall i :: 0 <= i < |s| - 1 ==> s[1..][i] == s[i + 1];
      CountAbsent(s[1..], v);
    }
  }

  /** Every value occurs exactly once precisely when no value repeats. */
  lemma {:induction false} DistinctIffAllCountsOne(s: seq<real>)
    ensures Distinct(s) <==> forall i :: 0 <= i < |s| ==> Count(s, s[i]) == 1
  {
    if Distinct(s) {
      forall i | 0 <= i < |s|
        ensures Count(s, s[i]) == 1
      {
        CountDistinct(s, i);
      }
    } else {
      var i, j :| 0 <= i < j < |s| && s[i] == s[j];
      CountRepeated(s, i, j);
    }
  }

  lemma {:induction false} CountDistinct(s: seq<real>, i: nat)
    requires Distinct(s) && i < |s|
    ensures Count(s, s[i]) == 1
  {
    var rest := s[1..];
    assert Distinct(rest) by {
      assert forall a :: 0 <= a < |rest| ==> rest[a] == s[a + 1];
    }
    if i == 0 {
      assert forall a :: 0 <= a < |rest| ==> rest[a] == s[a + 1];
      CountAbsent(rest, s[0]);
    } else {
      assert s[i] == rest[i - 1];
      CountDistinct(rest, i - 1);
    }
  }

  /** Highest occurrence count in `data` among the candidate values (the
      `max(counter.values())` of `calculate_mode`, with the candidates being the
      data themselves). */
  function MaxCount(data: seq<real>, cands: seq<real>): nat
    requires |cands| > 0
  {
    if |cands| == 1 then Count(data, cands[0])
    else
      var k := MaxCount(data, cands[1..]);
      if Count(data, cands[0]) >= k then Count(data, cands[0]) else k
  }

  /** No candidate occurs more often than the maximum count, and some
      candidate reaches it. */
  lemma {:induction false} MaxCountIsMaximum(data: seq<real>, cands: seq<real>)
    requires |cands| > 0
    ensures forall i :: 0 <= i < |cands| ==> Count(data, cands[i]) <= MaxCount(data, cands)
    ensures exists i :: 0 <= i < |cands| && Count(data, cands[i]) == MaxCount(data, cands)
  {
    if |cands| > 1 {
      var tail := cands[1..];
      MaxCountIsMaximum(data, tail);
      assert forall i :: 1 <= i < |cands| ==> cands[i] == tail[i - 1];
      var w :| 0 <= w < |tail| && Count(data, tail[w]) == MaxCount(data, tail);
      assert Count(data, cands[w + 1]) == MaxCount(data, tail);
      if Count(data, cands[0]) < MaxCount(data, tail) {
        assert Count(data, cands[w + 1]) == MaxCount(data, cands);
      } else {
        assert Count(data, cands[0]) == MaxCount(data, cands);
      }
    } else {
      assert Count(data, cands[0]) == MaxCount(data, cands);
    }
  }

  /** The candidates that occur exactly `k` times in `data`, in order. */
  function WithCount(data: seq<real>, cands: seq<real>, k: nat): seq<real> {
    if |cands| == 0 then []
    else
      var rest := WithCount(data, cands[1..], k);
      if Count(data, cands[0]) == k then [cands[0]] + rest else rest
  }

  /** The filtered list holds exactly the candidates with count `k`. */
  lemma {:induction false} WithCountMembers(data: seq<real>, cands: seq<real>, k: nat)
    ensures forall x :: x in WithCount(data, cands, k) <==> x in cands && Count(data, x) == k
  {
    if |cands| > 0 {
      WithCountMembers(data, cands[1..], k);
      assert forall x :: x in cands <==> x == cands[0] || x in cands[1..];
    }
  }

  /** Mode: the smallest of the most frequent values, or the mean when every
      value occurs exactly once. */
  function Mode(data: seq<real>): real
    requires |data| > 0
  {
    var k := MaxCount(data, data);
    if k == 1 then Mean(data)
    else
      var modes := WithCount(data, data, k);
      assert |modes| > 0 by {
        MaxCountIsMaximum(data, data);
        WithCountMembers(data, data, k);
        var w :| 0 <= w < |data| && Count(data, data[w]) == k;
        assert data[w] in modes;
      }
      Min(modes)
  }

  /** What a mode is, stated without reference to how it is found. */
  ghost predicate IsModeOf(data: seq<real>, m: real)
    requires |data| > 0
  {
    if Distinct(data) then m == Mean(data)
    else
      && m in data
      && (forall i :: 0 <= i < |data| ==> Count(data, data[i]) <= Count(data, m))
      && (forall i :: 0 <= i < |data| && Count(data, data[i]) == Count(data, m) ==> m <= data[i])
  }

  /** The computed mode meets the definition: the mean when all values are
      distinct; otherwise a value of the data that no other value outnumbers
      and that is the smallest of those reaching the highest count. */
  lemma ModeMeetsDefinition(data: seq<real>)
    requires |data| > 0
    ensures IsModeOf(data, Mode(data))
  {
    var k := MaxCount(data, data);
    MaxCountIsMaximum(data, data);
    WithCountMembers(data, data, k);
    DistinctIffAllCountsOne(data);
    if k == 1 {
      forall i | 0 <= i < |data| ensures Count(data, data[i]) == 1 {
        CountPositive(data, i);
      }
    } else {
      var w :| 0 <= w < |data| && Count(data, data[w]) == k;
      assert !Distinct(data) by {
        assert Count(data, data[w]) != 1 by { CountPositive(data, w); }
      }
      var modes := WithCount(data, data, k);
      assert data[w] in modes;
      var m := Min(modes);
      MinIsLeast(modes);
      assert Mode(data) == m;
      forall i | 0 <= i < |data| && Count(data, data[i]) == Count(data, m)
        ensures m <= data[i]
      {
        assert data[i] in modes;
        var j :| 0 <= j < |modes| && modes[j] == data[i];
      }
    }
  }

  /** The definition pins the mode down: any value meeting it is the
      computed mode. */
  lemma ModeUnique(data: seq<real>, m: real)
    requires |data| > 0
    requires IsModeOf(data, m)
    ensures m == Mode(data)
  {
    ModeMeetsDefinition(data);
    var r := Mode(data);
    if !Distinct(data) {
      var i :| 0 <= i < |data| && data[i] == m;
      var j :| 0 <= j < |data| && data[j] == r;
      assert Count(data, m) == Count(data, r);
      assert m <= r && r <= m;
    }
  }

  /** Without repeated values the mode falls back to the mean. */
  lemma ModeFallback(data: seq<real>)
    requires |data| > 0
    requires Distinct(data)
    ensures Mode(data) == Mean(data)
  {
    ModeMeetsDefinition(data);
  }

  /** One round's statistics, in the order `calculate_statistics` returns them. */
  datatype Triple = Triple(mean: real, median: real, mode: real) {
    /** The triple as the next round's dataset: [mean, median, mode]. */
    function Values(): seq<real> {
      [mean, median, mode]
    }

    /** The average of the three statistics, the value the engine returns. */
    function Average(): real {
      (mean + median + mode) / 3.0
    }

    /** All three statistics lie in [lo, hi]. */
    predicate Within(lo: real, hi: real) {
      lo <= mean <= hi && lo <= median <= hi && lo <= mode <= hi
    }
  }

  /** Mean, median and mode of a non-empty dataset. */
  function Compute(data: seq<real>): Triple
    requires |data| > 0
  {
    Triple(Mean(data), Median(data), Mode(data))
  }

  /** The mode lies between the smallest and the largest element. */
  lemma ModeBounds(data: seq<real>)
    requires |data| > 0
    ensures Min(data) <= Mode(data) <= Max(data)
  {
    ModeMeetsDefinition(data);
    MeanBounds(data);
    WithinMinMax(data);
  }

  /** None of the three statistics leaves the range of the data. */
  lemma ComputeWithin(data: seq<real>)
    requires |data| > 0
    ensures Compute(data).Within(Min(data), Max(data))
  {
    MeanBounds(data);
    MedianBounds(data);
    ModeBounds(data);
  }

  /** A single value is its own mean, median and mode. */
  lemma SingletonStatistics(x: real)
    ensures Compute([x]) == Triple(x, x, x)
  {
    ComputeWithin([x]);
  }

  /** A triple of equal values is a fixed point of one round. */
  lemma ConstantTripleIsFixedPoint(x: real)
    ensures Compute([x, x, x]) == Triple(x, x, x)
  {
    ComputeWithin([x, x, x]);
    MinIsLeast([x, x, x]);
    MaxIsGreatest([x, x, x]);
  }
}
